=== FILE: README.md ===
# Pehchaan storefront logic in Dafny

A model of the data logic of the Pehchaan handicraft marketplace, a
client-side React demo. Nothing here touches a browser. The storefront's
state updates and derived views are written as pure functions over immutable
datatypes, and their properties are proved.

Modules:

- `Seqs` (`seqs.dfy`): the stable filter `Keep` (what `Array.prototype.filter`
  does) and the subsequence relation. Every view below is built on them.
- `Catalog` (`catalog.dfy`): products, reviews and the twelve seed products.
  Also the marketplace sidebar filter (category, price window, minimum
  rating), the "Newly Added" strip, the featured rows of the categories page
  and the reviews shown for one product.
- `Cart` (`cart.dfy`): add-to-cart merging, the header badge count, and the
  checkout subtotal and total (shipping is free).
- `QuantityStepper` (`stepper.dfy`): the minus/plus quantity buttons of the
  product detail view.
- `Checkout` (`checkout.dfy`): the payment panel, `method → processing →
  success → method`. Its events are Place Order, the settlement timer firing
  and Continue Shopping.
- `InterestTags` (`tags.dfy`): the buyer profile's interest-tag toggle.
- `Session` (`session.dfy`): the demo sign-in decision, sign-in and sign-out
  of the app shell, and the light/dark theme switch.
- `Search` (`search.dfy`): the search bar. This covers the case-insensitive
  substring filter over its suggestions, what the dropdown shows, and how
  focus, outside presses and choices open and close it.

Notes on the code's behaviour, which the model follows:

- The marketplace filter uses an inclusive price window `[lo, hi]`. The
  category selector's `"All"` value selects every category.
- The cart has only an add operation. Placing an order removes only the
  stored cart snapshot. The in-memory cart keeps its
  lines, so the payment panel does not change the cart.
- Adding to the cart bumps every line with the product's id (a `map` over the
  lines). Exactly one line changes only under the invariant that ids are
  unique. The model proves this invariant for every cart built from
  empty (`Cart.Fill`).
- The settlement timer's callback sets `success` without looking at the
  current step. The model tracks pending timers. It proves that in every
  reachable panel a timer is pending only while processing
  (`Checkout.RunIsValid`). So the callback fires only from `processing`.
- The theme switch maps `"light"` to `"dark"` and every other string to
  `"light"`. It is an involution only on `{"light", "dark"}`. A theme
  restored from storage can be any string.

Two consequences of the seed data and constants are proved rather than
assumed. First, the price slider stops at 15000, so the Marble Inlay Table
(priced 18500) is never listed at any slider setting
(`Catalog.MarbleTableNeverListed`). With the sidebar untouched it is the only
seed product left out (`Catalog.DefaultHidesOnlyMarbleTable`). Second, a product with stock 0
would make the plus button take the quantity from 1 down to 0
(`QuantityStepper.OutOfStockPlus`).

## Model

| member | source | states |
|---|---|---|
| Seqs.Keep | src/pages/Pehchaan.tsx:727-732 | The stable filter: an ordered subsequence of the input with every occurrence of each passing element and none of a failing one. |
| Catalog.Filter | src/pages/Pehchaan.tsx:727-732 | A product is listed iff its category matches or "All" is chosen, lo ≤ price ≤ hi, and the minimum rating is unset (≤ 0) or reached. The result keeps catalogue order and multiplicities. |
| Catalog.NewArrivals | src/pages/Pehchaan.tsx:734 | Exactly the catalogue products flagged new, each as often as in the catalogue, in catalogue order. |
| Catalog.InCategory | src/pages/Pehchaan.tsx:2309-2357 | Exactly the catalogue products of one category, each as often as in the catalogue, in catalogue order. |
| Catalog.Featured | src/pages/Pehchaan.tsx:2415 | At most three products, all of the category. They are the first ones of the category in catalogue order, or all of them when fewer than three exist. |
| Catalog.ReviewsFor | src/pages/Pehchaan.tsx:897 | Exactly the reviews whose product id is the shown product's, each as often as in the list, in their original order. |
| Catalog.NarrowerWindowIsSubset | src/pages/Pehchaan.tsx:729 | Narrowing the price window (same category and threshold) never adds a product. |
| Catalog.DefaultFilterIsPriceCap | src/pages/Pehchaan.tsx:719-732 | With the initial sidebar ("All", 0..15000, rating 0), a product is listed iff its price is at most 15000. |
| Catalog.VaseAndPriceCap | src/pages/Pehchaan.tsx:727-732 | The vase priced 1450 is hidden with a price maximum of 1000 and shown with 1500. |
| Catalog.AboveWindowNeverListed | src/pages/Pehchaan.tsx:729 | A product priced above the window's top is never listed, whatever the catalogue, category and rating threshold. |
| Catalog.MarbleTableNeverListed | src/pages/Pehchaan.tsx:720-799 | For every sidebar whose price top is at most the slider's maximum of 15000, the marble inlay table (18500) is not listed. |
| Catalog.DefaultHidesOnlyMarbleTable | src/pages/Pehchaan.tsx:719-732 | With the initial sidebar, every seed product except the one priced 18500 is listed, and that one is not. |
| Cart.AddToCart | src/pages/Pehchaan.tsx:2577-2588 | After an add, the product has a line. If it had one, the length is kept, every line keeps its product, and lines with the id gain q. Otherwise the new line (product, q) is appended. |
| Cart.AddToExistingLine | src/pages/Pehchaan.tsx:2579-2586 | In a cart with unique ids, adding to an existing line raises exactly that line by q. The length and every other line are unchanged. |
| Cart.AddNewLine | src/pages/Pehchaan.tsx:2587 | Adding a product with no line appends (product, q) at the end and keeps every earlier line. |
| Cart.AddPreservesUniqueIds | src/pages/Pehchaan.tsx:2577-2588 | Every add preserves "at most one line per product id". |
| Cart.Fill | src/pages/Pehchaan.tsx:2567-2588 | Every cart reached by adds from the empty cart has at most one line per product id. |
| Cart.AddRaisesCount | src/pages/Pehchaan.tsx:2672 | In a cart with unique ids, adding q of any product raises the badge count by exactly q. |
| Cart.FillCount | src/pages/Pehchaan.tsx:2672 | The badge of a cart filled from empty is the sum of all quantities ever added. |
| Cart.CartCount | src/pages/Pehchaan.tsx:2672 | The badge is never negative and is at least the quantity of every single line. |
| Cart.CartCountZeroIff | src/pages/Pehchaan.tsx:2672 | The badge is zero exactly when every line's quantity is zero. |
| Cart.Subtotal | src/pages/Pehchaan.tsx:1161 | The subtotal is never negative and is at least the cost (price × quantity) of every single line. |
| Cart.Total | src/pages/Pehchaan.tsx:1161-1163 | The amount payable equals the subtotal: shipping adds nothing. |
| Cart.AddRaisesSubtotal | src/pages/Pehchaan.tsx:1161-1163 | Take a cart with unique ids whose lines with this id hold this product. Adding q of it raises the subtotal and the total by exactly price × q. |
| Cart.CatalogCartAgrees | src/pages/Pehchaan.tsx:2577-2588 | Take a cart filled from a catalogue with distinct ids. Any line with a catalogue product's id holds that very product. |
| Cart.FillFromCatalog | src/pages/Pehchaan.tsx:2577-2588 | Every line of a cart filled by adds of catalogue products holds a catalogue product. |
| Cart.FillAddRaisesSubtotal | src/pages/Pehchaan.tsx:1161-1163 | In a cart filled from a catalogue with distinct ids, adding q of any catalogue product raises the subtotal by exactly price × q. |
| Cart.FillSubtotal | src/pages/Pehchaan.tsx:1161-1163 | The subtotal of a cart filled from a catalogue with distinct ids is the summed price × quantity of all the adds. |
| Cart.AddTwiceMerges | src/pages/Pehchaan.tsx:2579-2587 | Adding q1 and then q2 of a product gives the same cart as adding q1 + q2 once. |
| Cart.BumpFirst | src/pages/Pehchaan.tsx:2594-2596 | The snapshot's find-and-raise keeps the length and every line's product. |
| Cart.AddToCartAliased | src/pages/Pehchaan.tsx:2577-2599 | The add as written when the updater runs after the snapshot code: the product has a line afterwards, and the length grows only for a new product. |
| Cart.BumpFirstUnique | src/pages/Pehchaan.tsx:2579-2596 | Under unique ids, raising the first line with the id equals raising every line with it. |
| Cart.AliasedAddDoubleCounts | src/pages/Pehchaan.tsx:2577-2599 | As written, with unique ids, adding q to an existing line raises the badge by 2 × q, where the updater alone raises it by q. |
| Cart.AliasedOneThenOne | src/pages/Pehchaan.tsx:2577-2599 | As written, one line of 1 plus 1 gives 3 (intended 2), and 1 then 2 from empty gives 5 (intended 3). |
| Cart.OneThenTwo | src/pages/Pehchaan.tsx:2577-2588 | Adding a product to the empty cart with 1 and then with 2 gives one line of 3, whose total is 3 × price. |
| QuantityStepper.Decrement | src/pages/Pehchaan.tsx:966 | Minus never goes below 1 and never raises a quantity that is at least 1. Above 1 it subtracts exactly one; at or below 1 it gives 1. |
| QuantityStepper.Increment | src/pages/Pehchaan.tsx:973 | Plus never exceeds the stock or q + 1. Below stock - 1 it adds exactly one; once q + 1 reaches the stock it gives the stock. |
| QuantityStepper.RunStaysInRange | src/pages/Pehchaan.tsx:966-973 | From any quantity in [1, stock], every sequence of presses stays in [1, stock]. |
| QuantityStepper.QuantityWithinStock | src/pages/Pehchaan.tsx:893-973 | With stock ≥ 1, starting from 1, the quantity sent to the cart is always in [1, stock]. |
| QuantityStepper.PlusPressesReach | src/pages/Pehchaan.tsx:973 | n presses of plus from q reach min(stock, q + n), so every quantity up to the stock can be chosen. |
| QuantityStepper.OutOfStockPlus | src/pages/Pehchaan.tsx:973 | With stock 0, plus takes the opening quantity 1 to 0. |
| Checkout.Next | src/pages/Pehchaan.tsx:1165-1221 | An event that is not offered changes nothing. An offered Place Order leads to processing, the timer to success, and Continue Shopping to method. |
| Checkout.NextPreservesValid | src/pages/Pehchaan.tsx:1174-1221 | Every event keeps "one timer pending iff processing". |
| Checkout.RunIsValid | src/pages/Pehchaan.tsx:1174-1221 | Every panel reachable from the opening state has one pending timer while processing and none otherwise. |
| Checkout.OnlyLegalMoves | src/pages/Pehchaan.tsx:1470-1501 | A reachable panel changes only by method→processing on Place Order, processing→success on the timer, or success→method on Continue Shopping. |
| Checkout.ProcessingWaitsForTimer | src/pages/Pehchaan.tsx:1470-1486 | While processing, every event but the timer is ignored, including a second Place Order. The timer leads to success with nothing pending. |
| Checkout.StaleTimerOverwrites | src/pages/Pehchaan.tsx:1212-1214 | The timer callback ignores the current step: a stray timer in method would still set success. |
| Checkout.FullCycle | src/pages/Pehchaan.tsx:1174-1219 | Place Order, timer and Continue Shopping bring the panel back to its opening state. |
| InterestTags.Toggle | src/pages/Pehchaan.tsx:2171-2177 | The clicked tag's membership flips. Every other tag keeps its membership, and the other tags keep their relative order. An unselected tag is appended once, at the end. |
| InterestTags.ToggleTwiceRestores | src/pages/Pehchaan.tsx:2171-2177 | Clicking an unselected tag twice restores the selection exactly. |
| InterestTags.ToggleTwiceMovesToEnd | src/pages/Pehchaan.tsx:2171-2177 | Clicking a selected tag twice keeps the other tags in order and moves it to the end. |
| InterestTags.InitialTagsOffered | src/pages/Pehchaan.tsx:2171-2177 | Every tag selected when the profile opens is one the profile offers. |
| InterestTags.ClickUnselectedOnOpening | src/pages/Pehchaan.tsx:2171-2177 | On the opening profile, clicking Metalware appends it after the three selected tags. |
| InterestTags.ClickSelectedOnOpening | src/pages/Pehchaan.tsx:2171-2177 | On the opening profile, clicking Textiles removes it and keeps Pottery and Paintings in order. |
| InterestTags.ToggleKeepsDistinct | src/pages/Pehchaan.tsx:2171-2177 | A selection without repeats stays without repeats after a click. |
| Session.DecideAuth | src/pages/Pehchaan.tsx:424-441 | Accepted iff email or password is non-blank, so the demo check is subsumed. The type is the modal's. A blank email becomes demo@pehchaan.com. A blank name becomes Demo Buyer, Demo Seller or Demo User, chosen by the email. |
| Session.DemoBuyerAccepted | src/pages/Pehchaan.tsx:426-435 | The demo buyer credentials with no name sign in "Demo Buyer" with the given email. |
| Session.BlankFormRejected | src/pages/Pehchaan.tsx:429-440 | A form with blank email and password leaves the session unchanged. |
| Session.Login | src/pages/Pehchaan.tsx:2614-2617 | After sign-in the session is authenticated and records the user and the user's type. The page stays the same. |
| Session.Logout | src/pages/Pehchaan.tsx:2626-2630 | After sign-out there is no user and no type, the session is not authenticated, and the page is the marketplace. |
| Session.SubmitAuthKeepsConsistent | src/pages/Pehchaan.tsx:424-441 | Submitting the form keeps the session fields consistent. Afterwards the session is signed in iff it was before or email or password was given. |
| Session.LogoutForgets | src/pages/Pehchaan.tsx:2626-2630 | Sign-out always yields the signed-out marketplace session and undoes any sign-in. |
| Session.SubmitAuth | src/pages/Pehchaan.tsx:424-441 | A form with blank email and password leaves the session as it was. Otherwise the session is signed in with the modal's account type, the given email or the demo address, and the same page. The user's name is the given name, or Demo Buyer, Demo Seller or Demo User chosen by the email. |
| Session.ToggleTheme | src/pages/Pehchaan.tsx:48-50 | The switch always yields light or dark, and yields dark iff the theme was light. |
| Session.ToggleThemeInvolution | src/pages/Pehchaan.tsx:48-50 | Switching twice restores the theme iff it was light or dark. Any other value ends up dark. |
| Search.LowerChar | src/components/SearchBar.tsx:38 | ASCII capitals map to the small letter 32 code points above, and every other character is unchanged. |
| Search.Lower | src/components/SearchBar.tsx:38 | Same length, character-wise lower-casing, and no capital letters left. |
| Search.ContainsIffOccurs | src/components/SearchBar.tsx:38 | The substring search succeeds iff the needle occurs at some position of the text. |
| Search.Matching | src/components/SearchBar.tsx:37-39 | Exactly the suggestions whose lower-cased text contains the lower-cased query, each as often as in the list, as an ordered subsequence of the list. |
| Search.FilteredSuggestions | src/components/SearchBar.tsx:35-44 | An empty query gives the full list in order. A non-empty query gives exactly the suggestions containing it, ignoring case, each as often as in the list. Either way the result is an ordered subsequence no longer than the list. |
| Search.EmptyQueryKeepsAll | src/components/SearchBar.tsx:36-43 | Filtering with the empty query keeps every suggestion, so both branches of the effect compute the same list for every query. |
| Search.QueryCaseIgnored | src/components/SearchBar.tsx:38 | A query and its lower-cased form select the same suggestions. |
| Search.PashminaFound | src/components/SearchBar.tsx:35-40 | The query "PASHMINA" lists the "Kashmir pashmina" suggestion. |
| Search.View | src/components/SearchBar.tsx:80-154 | Hidden iff closed. Category shortcuts and the full list appear iff open with an empty query. "No suggestions found" appears iff open with a non-empty query no suggestion contains. Results appear iff open with a non-empty query some suggestion contains, and list every matching suggestion, each as often as in the list, in list order. |
| Search.Next | src/components/SearchBar.tsx:46-73 | Typing replaces only the query. Focus opens the dropdown, a press outside closes it, and a press inside changes nothing. Choosing a shown entry sets the query to it and closes the dropdown. Choosing anything else changes nothing. |
| Search.OpenFlagTransitions | src/components/SearchBar.tsx:46-73 | The dropdown opens iff it was closed and the input is focused; focus always leaves it open. It closes iff it was open and the press is outside or a shown entry is chosen; a press outside always leaves it closed. Typing and presses inside keep the flag. |
| Search.ChooseNeedsOpenDropdown | src/components/SearchBar.tsx:57-59 | A choice that changes anything was made from an open dropdown. It hides the dropdown and sets the query to the chosen text. |
| Search.FocusShowsBrowsePanel | src/components/SearchBar.tsx:73-125 | Focusing the empty bar shows all category shortcuts and every suggestion in list order. |

## Left out

- Browser storage: the theme, cart snapshot, session restore and order log are all left out. They are I/O outside the in-memory state updates.
- The stored cart snapshot is left out as storage. Its in-place `+=` on a line it shares with the previous cart is modelled (`Cart.AddToCartAliased`; see Findings).
- The 3-second `setTimeout`: the delay is the abstract `TimerFired` event. Unmounting the checkout page while processing discards the component state, and that is not modelled.
- The order record built on Place Order (time-based id, date, shipping form, payment details) is left out. It is only written to storage.
- `alert`, `console.log`, `window.matchMedia` (the initial theme) and DOM listeners and refs are left out. Only the open/closed transitions they cause are modelled.
- The seller dashboard's Add Product prompt is left out: it uses `prompt` and `Math.random`.
- The sign-in modal (its open flag, mode and form fields) is left out; only the decision and the session update are modelled, and validation is the browser's `required`.
- The filter-tag strip is left out. It only forwards clicks.
- Page routing is modelled only where sign-out resets the page to the marketplace.
- Static dashboard, KPI, order and review tables are left out. They are constant display data.
- Search.LowerChar: folds only `A`..`Z`. JavaScript's `toLowerCase` also lower-cases non-ASCII letters such as `É`, which this leaves unchanged.
- Search.Lower: lower-cases ASCII letters only. JavaScript's `toLowerCase` also folds non-ASCII letters.
- Catalog.Filter: ratings are exact decimals (`real`), not IEEE doubles. Prices and quantities are unbounded integers, while JavaScript numbers are exact only up to 2^53.
- Catalog.Filter: the page's slider only moves the upper bound (the lower bound stays 0). The model accepts any window.
- Cart.AddToCart: quantities are natural numbers. The page passes 1 or the stepper's value.
- Cart.AddToCart: this is the intended add, the one the updater computes on its own. It matches the page only when React runs the updater before the snapshot code, that is, when it computes the new state eagerly. Otherwise an existing line rises by 2 × q (see Findings).

## Findings

| source | as written | input that shows it | evidently intended | confidence | as-written member | corrected member |
|---|---|---|---|---|---|---|
| src/pages/Pehchaan.tsx:2593-2596 | `[...cartItems]` copies the array but shares its line objects. `existingItem.quantity += quantity` therefore raises the line that the queued updater reads as `prev`. When the updater runs after this, it raises the line again. | cart [(P, 1)], add P with 1: the line holds 3. Adding 1 then 2 to the empty cart: 5. | The add raises the existing line by q, so 2 and 3 | not executed; medium, because it depends on React deferring the updater rather than computing it eagerly | Cart.AliasedAddDoubleCounts | Cart.AddRaisesCount |

=== FILE: cart.dfy ===
/** The shopping cart held by the app shell: adding a product merges into the
    line with the same product id or appends a new line, and the header badge,
    the checkout subtotal and the total are sums over the lines. */
module Cart {
  import opened Catalog

  /** One product and how many of it the buyer wants. */
  datatype CartLine = CartLine(product: Product, quantity: nat)

  /** Lines in the order their products were first added. */
  type Cart = seq<CartLine>

  /** Checkout charges nothing for shipping. */
  const Shipping: nat := 0

  /** Some line of the cart holds the product with this id. */
  predicate HasLine(cart: Cart, id: string) {
    exists i :: 0 <= i < |cart| && cart[i].product.id == id
  }

  /** The cart invariant: at most one line per product id. */
  predicate UniqueIds(cart: Cart) {
    forall i, j :: 0 <= i < j < |cart| ==> cart[i].product.id != cart[j].product.id
  }

  /** How many lines hold the product with this id. */
  function Occurrences(cart: Cart, id: string): nat {
    if |cart| == 0 then 0
    else (if cart[0].product.id == id then 1 else 0) + Occurrences(cart[1..], id)
  }

  /** The merge step of an add: every line holding product `id` gets `q` more,
      every other line is copied (the `map` over the previous lines). */
  function Bump(cart: Cart, id: string, q: nat): (r: Cart)
    ensures |r| == |cart|
  {
    if |cart| == 0 then []
    else
      var line := cart[0];
      var line' := if line.product.id == id then line.(quantity := line.quantity + q) else line;
      [line'] + Bump(cart[1..], id, q)
  }

  /** Adding `q` of a product: merge into the existing line with the same id,
      otherwise append a new line at the end. */
  function AddToCart(cart: Cart, product: Product, q: nat): (r: Cart)
    ensures HasLine(r, product.id)
    ensures HasLine(cart, product.id) ==> |r| == |cart|
    ensures HasLine(cart, product.id) ==> forall i :: 0 <= i < |cart| ==>
      && r[i].product == cart[i].product
      && r[i].quantity == (if cart[i].product.id == product.id then cart[i].quantity + q else cart[i].quantity)
    ensures !HasLine(cart, product.id) ==> r == cart + [CartLine(product, q)]
  {
    if HasLine(cart, product.id) then
      BumpSpec(cart, product.id, q);
      var k :| 0 <= k < |cart| && cart[k].product.id == product.id;
      var r := Bump(cart, product.id, q);
      assert r[k].product.id == product.id;
      r
    else
      var r := cart + [CartLine(product, q)];
      assert r[|cart|].product.id == product.id;
      r
  }

  /** The header badge: how many items the cart holds. No line is left
      out; `CartCountZeroIff` shows the badge is zero exactly when every
      line is. */
  function CartCount(cart: Cart): (r: int)
    ensures r >= 0
    ensures forall i :: 0 <= i < |cart| ==> r >= cart[i].quantity
    decreases |cart|
  {
    if |cart| == 0 then 0
    else
      var rest := CartCount(cart[1..]);
      assert forall i :: 1 <= i < |cart| ==> cart[i] == cart[1..][i - 1];
      cart[0].quantity + rest
  }

  /** The badge reads zero exactly when every line's quantity is zero. */
  lemma {:induction false} CartCountZeroIff(cart: Cart)
    ensures CartCount(cart) == 0 <==> forall i :: 0 <= i < |cart| ==> cart[i].quantity == 0
    decreases |cart|
  {
    if |cart| > 0 {
      CartCountZeroIff(cart[1..]);
      assert forall i :: 1 <= i < |cart| ==> cart[i] == cart[1..][i - 1];
    }
  }

  /** The checkout subtotal: price times quantity summed over the lines. It
      is at least what any one line costs. */
  function Subtotal(cart: Cart): (r: int)
    ensures r >= 0
    ensures forall i :: 0 <= i < |cart| ==> r >= cart[i].product.price * cart[i].quantity
    decreases |cart|
  {
    if |cart| == 0 then 0
    else
      var rest := Subtotal(cart[1..]);
      assert forall i :: 1 <= i < |cart| ==> cart[i] == cart[1..][i - 1];
      cart[0].product.price * cart[0].quantity + rest
  }

  /** The amount payable: subtotal plus (free) shipping. */
  function Total(cart: Cart): (t: int)
    ensures t == Subtotal(cart)
  {
    Subtotal(cart) + Shipping
  }

  /** Element-wise meaning of the merge step. */
  lemma {:induction false} BumpSpec(cart: Cart, id: string, q: nat)
    ensures |Bump(cart, id, q)| == |cart|
    ensures forall i :: 0 <= i < |cart| ==>
      && Bump(cart, id, q)[i].product == cart[i].product
      && Bump(cart, id, q)[i].quantity == (if cart[i].product.id == id then cart[i].quantity + q else cart[i].quantity)
    decreases |cart|
  {
    if |cart| > 0 {
      BumpSpec(cart[1..], id, q);
      var r := Bump(cart, id, q);
      forall i | 0 <= i < |cart|
        ensures r[i].product == cart[i].product
        ensures r[i].quantity == (if cart[i].product.id == id then cart[i].quantity + q else cart[i].quantity)
      {
        if i > 0 {
          assert r[i] == Bump(cart[1..], id, q)[i - 1];
        }
      }
    }
  }

  /** The badge counts every line: sums split over concatenation. */
  lemma {:induction false} CartCountAppend(a: Cart, b: Cart)
    ensures CartCount(a + b) == CartCount(a) + CartCount(b)
    decreases |a|
  {
    if |a| == 0 {
      assert a + b == b;
    } else {
      assert (a + b)[1..] == a[1..] + b;
      CartCountAppend(a[1..], b);
    }
  }

  /** The subtotal splits over concatenation. */
  lemma {:induction false} SubtotalAppend(a: Cart, b: Cart)
    ensures Subtotal(a + b) == Subtotal(a) + Subtotal(b)
    decreases |a|
  {
    if |a| == 0 {
      assert a + b == b;
    } else {
      assert (a + b)[1..] == a[1..] + b;
      SubtotalAppend(a[1..], b);
    }
  }

  /** The merge step raises the badge by `q` for every line it touches. */
  lemma {:induction false} CartCountBump(cart: Cart, id: string, q: nat)
    ensures CartCount(Bump(cart, id, q)) == CartCount(cart) + q * Occurrences(cart, id)
    decreases |cart|
  {
    if |cart| > 0 {
      CartCountBump(cart[1..], id, q);
    }
  }

  /** The merge step raises the subtotal by `price * q` for every line it
      touches, when those lines all carry the price `price`. */
  lemma {:induction false} SubtotalBump(cart: Cart, id: string, q: nat, price: nat)
    requires forall i :: 0 <= i < |cart| && cart[i].product.id == id ==> cart[i].product.price == price
    ensures Subtotal(Bump(cart, id, q)) == Subtotal(cart) + price * q * Occurrences(cart, id)
    decreases |cart|
  {
    if |cart| > 0 {
      var line := cart[0];
      var rest := Bump(cart[1..], id, q);
      SubtotalBump(cart[1..], id, q, price);
      var n := Occurrences(cart[1..], id);
      if line.product.id == id {
        var line' := line.(quantity := line.quantity + q);
        assert Bump(cart, id, q) == [line'] + rest;
        assert ([line'] + rest)[1..] == rest;
        CostSplit(price, line.quantity, q, n);
      } else {
        assert Bump(cart, id, q) == [line] + rest;
        assert ([line] + rest)[1..] == rest;
      }
    }
  }

  /** The arithmetic of raising one line: the extra quantity costs its own
      price, once per touched line. */
  lemma CostSplit(price: nat, quantity: nat, q: nat, n: nat)
    ensures price * (quantity + q) == price * quantity + price * q
    ensures price * q * (1 + n) == price * q + price * q * n
  {
  }

  /** Under the invariant, a product that has a line has exactly one. */
  lemma {:induction false} UniqueOccurrence(cart: Cart, id: string)
    requires UniqueIds(cart)
    ensures Occurrences(cart, id) == if HasLine(cart, id) then 1 else 0
    decreases |cart|
  {
    if |cart| > 0 {
      UniqueOccurrence(cart[1..], id);
      if cart[0].product.id == id {
        assert !HasLine(cart[1..], id) by {
          forall i | 0 <= i < |cart[1..]|
            ensures cart[1..][i].product.id != id
          {
            assert cart[1..][i] == cart[i + 1];
          }
        }
      } else {
        assert HasLine(cart, id) <==> HasLine(cart[1..], id) by {
          if HasLine(cart, id) {
            var i :| 0 <= i < |cart| && cart[i].product.id == id;
            assert cart[1..][i - 1] == cart[i];
          }
          if HasLine(cart[1..], id) {
            var i :| 0 <= i < |cart[1..]| && cart[1..][i].product.id == id;
            assert cart[i + 1] == cart[1..][i];
          }
        }
      }
    }
  }

  /** Adding to a product that already has a line keeps the cart's length,
      raises that one line's quantity by exactly `q` and leaves every other
      line as it was. */
  lemma AddToExistingLine(cart: Cart, product: Product, q: nat, k: nat)
    requires UniqueIds(cart)
    requires k < |cart| && cart[k].product.id == product.id
    ensures |AddToCart(cart, product, q)| == |cart|
    ensures AddToCart(cart, product, q)[k] == cart[k].(quantity := cart[k].quantity + q)
    ensures forall i :: 0 <= i < |cart| && i != k ==> AddToCart(cart, product, q)[i] == cart[i]
  {
  }

  /** Adding a product with no line appends it and keeps every earlier line. */
  lemma AddNewLine(cart: Cart, product: Product, q: nat)
    requires forall i :: 0 <= i < |cart| ==> cart[i].product.id != product.id
    ensures |AddToCart(cart, product, q)| == |cart| + 1
    ensures AddToCart(cart, product, q)[|cart|] == CartLine(product, q)
    ensures AddToCart(cart, product, q)[..|cart|] == cart
  {
  }

  /** Every add keeps "at most one line per product id". */
  lemma AddPreservesUniqueIds(cart: Cart, product: Product, q: nat)
    requires UniqueIds(cart)
    ensures UniqueIds(AddToCart(cart, product, q))
  {
    var r := AddToCart(cart, product, q);
    if !HasLine(cart, product.id) {
      forall i, j | 0 <= i < j < |r|
        ensures r[i].product.id != r[j].product.id
      {
        if j == |cart| {
          assert r[i] == cart[i];
        }
      }
    }
  }

  /** Adding `q` of any product raises the badge by exactly `q`. */
  lemma AddRaisesCount(cart: Cart, product: Product, q: nat)
    requires UniqueIds(cart)
    ensures CartCount(AddToCart(cart, product, q)) == CartCount(cart) + q
  {
    if HasLine(cart, product.id) {
      CartCountBump(cart, product.id, q);
      UniqueOccurrence(cart, product.id);
    } else {
      CartCountAppend(cart, [CartLine(product, q)]);
    }
  }

  /** Every line holding this product's id holds this very product (true of
      any cart filled from a catalogue whose ids are distinct). */
  predicate AgreesWith(cart: Cart, product: Product) {
    forall i :: 0 <= i < |cart| && cart[i].product.id == product.id ==> cart[i].product == product
  }

  /** No two catalogue products share an id. */
  predicate DistinctIds(catalog: seq<Product>) {
    forall i, j :: 0 <= i < j < |catalog| ==> catalog[i].id != catalog[j].id
  }

  /** A cart whose lines all come from a catalogue with distinct ids agrees
      with every catalogue product. */
  lemma CatalogCartAgrees(cart: Cart, catalog: seq<Product>, product: Product)
    requires DistinctIds(catalog)
    requires forall i :: 0 <= i < |cart| ==> cart[i].product in catalog
    requires product in catalog
    ensures AgreesWith(cart, product)
  {
    forall i | 0 <= i < |cart| && cart[i].product.id == product.id
      ensures cart[i].product == product
    {
      var a :| 0 <= a < |catalog| && catalog[a] == cart[i].product;
      var b :| 0 <= b < |catalog| && catalog[b] == product;
      assert a == b;
    }
  }

  /** Adding `q` of a product raises the subtotal and the total by exactly
      `price * q`. */
  lemma AddRaisesSubtotal(cart: Cart, product: Product, q: nat)
    requires UniqueIds(cart)
    requires AgreesWith(cart, product)
    ensures Subtotal(AddToCart(cart, product, q)) == Subtotal(cart) + product.price * q
    ensures Total(AddToCart(cart, product, q)) == Total(cart) + product.price * q
  {
    if HasLine(cart, product.id) {
      SubtotalBump(cart, product.id, q, product.price);
      UniqueOccurrence(cart, product.id);
    } else {
      SubtotalAppend(cart, [CartLine(product, q)]);
    }
  }

  /** Adding `q1` then `q2` of the same product is adding `q1 + q2` at once. */
  lemma {:induction false} AddTwiceMerges(cart: Cart, product: Product, q1: nat, q2: nat)
    ensures AddToCart(AddToCart(cart, product, q1), product, q2) == AddToCart(cart, product, q1 + q2)
  {
    var id := product.id;
    var once := AddToCart(cart, product, q1);
    var twice := AddToCart(once, product, q2);
    var direct := AddToCart(cart, product, q1 + q2);
    assert |twice| == |direct|;
    forall i | 0 <= i < |twice|
      ensures twice[i] == direct[i]
    {
      if !HasLine(cart, id) && i == |cart| {
        assert once[i] == CartLine(product, q1);
      }
    }
  }

  /** The cart any sequence of adds leaves, starting from an empty cart. */
  function Fill(adds: seq<(Product, nat)>): (cart: Cart)
    ensures UniqueIds(cart)
    decreases |adds|
  {
    if |adds| == 0 then []
    else
      var prev := Fill(adds[..|adds| - 1]);
      var (p, q) := adds[|adds| - 1];
      AddPreservesUniqueIds(prev, p, q);
      AddToCart(prev, p, q)
  }

  /** The badge of a cart filled from empty is the sum of all quantities ever
      added. */
  lemma {:induction false} FillCount(adds: seq<(Product, nat)>)
    ensures CartCount(Fill(adds)) == SumAdded(adds)
    decreases |adds|
  {
    if |adds| > 0 {
      FillCount(adds[..|adds| - 1]);
      AddRaisesCount(Fill(adds[..|adds| - 1]), adds[|adds| - 1].0, adds[|adds| - 1].1);
    }
  }

  /** The total quantity of a sequence of adds. */
  function SumAdded(adds: seq<(Product, nat)>): int
    decreases |adds|
  {
    if |adds| == 0 then 0 else SumAdded(adds[..|adds| - 1]) + adds[|adds| - 1].1
  }

  /** A product added to an empty cart once with quantity 1 and again with
      quantity 2 gives a single line of 3, costing three times its price. */
  lemma OneThenTwo(product: Product)
    ensures AddToCart(AddToCart([], product, 1), product, 2) == [CartLine(product, 3)]
    ensures Total(AddToCart(AddToCart([], product, 1), product, 2)) == 3 * product.price
  {
    AddTwiceMerges([], product, 1, 2);
    var c := AddToCart(AddToCart([], product, 1), product, 2);
    assert c[1..] == [];
    assert Subtotal(c) == product.price * 3 + Subtotal(c[1..]);
  }

  /** Every line of a cart filled from a catalogue holds a catalogue
      product. */
  lemma {:induction false} FillFromCatalog(adds: seq<(Product, nat)>, catalog: seq<Product>)
    requires forall k :: 0 <= k < |adds| ==> adds[k].0 in catalog
    ensures forall i :: 0 <= i < |Fill(adds)| ==> Fill(adds)[i].product in catalog
    decreases |adds|
  {
    if |adds| > 0 {
      var init := adds[..|adds| - 1];
      assert forall k :: 0 <= k < |init| ==> init[k] == adds[k];
      FillFromCatalog(init, catalog);
      var prev := Fill(init);
      var (p, q) := adds[|adds| - 1];
      if HasLine(prev, p.id) {
        BumpSpec(prev, p.id, q);
      } else {
        var r := prev + [CartLine(p, q)];
        assert forall i :: 0 <= i < |prev| ==> r[i] == prev[i];
      }
    }
  }

  /** In a cart filled from a catalogue with distinct ids, adding `q` of any
      catalogue product raises the subtotal by exactly `price * q`. */
  lemma {:induction false} FillAddRaisesSubtotal(adds: seq<(Product, nat)>, catalog: seq<Product>, product: Product, q: nat)
    requires DistinctIds(catalog)
    requires forall k :: 0 <= k < |adds| ==> adds[k].0 in catalog
    requires product in catalog
    ensures Subtotal(AddToCart(Fill(adds), product, q)) == Subtotal(Fill(adds)) + product.price * q
  {
    FillFromCatalog(adds, catalog);
    CatalogCartAgrees(Fill(adds), catalog, product);
    AddRaisesSubtotal(Fill(adds), product, q);
  }

  /** What a sequence of adds costs: price times quantity, summed. */
  function CostAdded(adds: seq<(Product, nat)>): int
    decreases |adds|
  {
    if |adds| == 0 then 0 else CostAdded(adds[..|adds| - 1]) + adds[|adds| - 1].0.price * adds[|adds| - 1].1
  }

  /** The subtotal of a cart filled from a catalogue with distinct ids is
      what all the adds cost together. */
  lemma {:induction false} FillSubtotal(adds: seq<(Product, nat)>, catalog: seq<Product>)
    requires DistinctIds(catalog)
    requires forall k :: 0 <= k < |adds| ==> adds[k].0 in catalog
    ensures Subtotal(Fill(adds)) == CostAdded(adds)
    decreases |adds|
  {
    if |adds| > 0 {
      var init := adds[..|adds| - 1];
      assert forall k :: 0 <= k < |init| ==> init[k] == adds[k];
      FillSubtotal(init, catalog);
      FillAddRaisesSubtotal(init, catalog, adds[|adds| - 1].0, adds[|adds| - 1].1);
    }
  }

  /** The snapshot code's `find` and `+=`: only the first line holding
      product `id` gets `q` more. */
  function BumpFirst(cart: Cart, id: string, q: nat): (r: Cart)
    ensures |r| == |cart|
    ensures forall i :: 0 <= i < |cart| ==> r[i].product == cart[i].product
    decreases |cart|
  {
    if |cart| == 0 then []
    else if cart[0].product.id == id then [cart[0].(quantity := cart[0].quantity + q)] + cart[1..]
    else [cart[0]] + BumpFirst(cart[1..], id, q)
  }

  /** Adding as the page's code is written, when React runs the queued
      updater only after the snapshot code has run: the snapshot copies the
      array but shares its line objects, so its `+=` has already raised the
      existing line the updater then raises again. */
  function AddToCartAliased(cart: Cart, product: Product, q: nat): (r: Cart)
    ensures HasLine(r, product.id)
    ensures |r| == if HasLine(cart, product.id) then |cart| else |cart| + 1
  {
    if HasLine(cart, product.id) then AddToCart(BumpFirst(cart, product.id, q), product, q)
    else AddToCart(cart, product, q)
  }

  /** The merge step changes nothing when no line holds the id. */
  lemma BumpAbsent(cart: Cart, id: string, q: nat)
    requires !HasLine(cart, id)
    ensures Bump(cart, id, q) == cart
  {
    BumpSpec(cart, id, q);
  }

  /** Under the invariant, raising the first line with the id is raising
      every line with it. */
  lemma {:induction false} BumpFirstUnique(cart: Cart, id: string, q: nat)
    requires UniqueIds(cart)
    ensures BumpFirst(cart, id, q) == Bump(cart, id, q)
    decreases |cart|
  {
    if |cart| > 0 {
      assert UniqueIds(cart[1..]) by {
        forall i, j | 0 <= i < j < |cart[1..]|
          ensures cart[1..][i].product.id != cart[1..][j].product.id
        {
          assert cart[1..][i] == cart[i + 1] && cart[1..][j] == cart[j + 1];
        }
      }
      if cart[0].product.id == id {
        assert !HasLine(cart[1..], id) by {
          forall i | 0 <= i < |cart[1..]|
            ensures cart[1..][i].product.id != id
          {
            assert cart[1..][i] == cart[i + 1];
          }
        }
        BumpAbsent(cart[1..], id, q);
      } else {
        BumpFirstUnique(cart[1..], id, q);
      }
    }
  }

  /** As written, in a cart with unique ids, adding `q` of a product that
      already has a line raises the badge by `2 * q`, not `q`. */
  lemma AliasedAddDoubleCounts(cart: Cart, product: Product, q: nat)
    requires UniqueIds(cart)
    requires HasLine(cart, product.id)
    ensures CartCount(AddToCartAliased(cart, product, q)) == CartCount(cart) + 2 * q
    ensures CartCount(AddToCart(cart, product, q)) == CartCount(cart) + q
  {
    BumpFirstUnique(cart, product.id, q);
    AddRaisesCount(cart, product, q);
    AddPreservesUniqueIds(cart, product, q);
    AddRaisesCount(Bump(cart, product.id, q), product, q);
  }

  /** The concrete case: one line of 1, add 1 more. As written the line
      holds 3; the intended add gives 2. Adding 1 and then 2 to the empty
      cart gives 5 as written, against the intended 3. */
  lemma AliasedOneThenOne(product: Product)
    ensures AddToCartAliased([CartLine(product, 1)], product, 1) == [CartLine(product, 3)]
    ensures AddToCart([CartLine(product, 1)], product, 1) == [CartLine(product, 2)]
    ensures AddToCartAliased(AddToCartAliased([], product, 1), product, 2) == [CartLine(product, 5)]
  {
    var one := [CartLine(product, 1)];
    assert HasLine(one, product.id) by { assert one[0].product.id == product.id; }
    assert AddToCartAliased([], product, 1) == one;
    assert BumpFirst(one, product.id, 1) == [CartLine(product, 2)];
    assert BumpFirst(one, product.id, 2) == [CartLine(product, 3)];
  }
}

=== FILE: catalog.dfy ===
/** The storefront catalogue and its read-only views: the marketplace filter
    (category, price window, minimum rating), the "Newly Added" strip, the
    per-category featured rows and the reviews shown for one product. */
module Catalog {
  import opened Seqs

  /** A product of the seed catalogue. Prices are whole rupees; ratings are
      decimal numbers such as 4.8, kept exact as `real`. Images and
      descriptions are presentation only and are not modelled. */
  datatype Product = Product(
    id: string,
    name: string,
    seller: string,
    artisan: string,
    price: nat,
    rating: real,
    reviews: nat,
    category: string,
    stock: nat,
    isNew: bool,
    isTrending: bool,
    isPremium: bool)

  /** A customer review attached to a product by its id. */
  datatype Review = Review(id: string, productId: string, user: string, rating: int, comment: string, date: string)

  /** The marketplace sidebar: a category radio ("All" or one category), a
      price window `[lo, hi]` and a minimum rating where 0 means "any". */
  datatype FilterState = FilterState(category: string, lo: int, hi: int, minRating: real)

  /** The category radio value that selects every category. */
  const AllCategories: string := "All"

  /** The sidebar as the page first shows it: every category, the slider's
      full range 0..15000 and no rating threshold. */
  const DefaultFilter: FilterState := FilterState(AllCategories, 0, 15000, 0.0)

  /** The per-product test of the marketplace filter, written as the three
      early exits of the page's filter callback. */
  predicate Passes(f: FilterState, p: Product) {
    if f.category != AllCategories && p.category != f.category then false
    else if p.price < f.lo || p.price > f.hi then false
    else if f.minRating > 0.0 && p.rating < f.minRating then false
    else true
  }

  /** The products the marketplace grid shows and counts ("N products found").
      A product is listed exactly when its category matches (or "All" is
      selected), its price lies in the inclusive window and its rating reaches
      the threshold (or no threshold is set); the grid keeps catalogue order
      and lists each product as often as the catalogue does. */
  function Filter(catalog: seq<Product>, f: FilterState): (r: seq<Product>)
    ensures forall p :: p in r <==>
      && p in catalog
      && (f.category == AllCategories || p.category == f.category)
      && f.lo <= p.price <= f.hi
      && (f.minRating <= 0.0 || p.rating >= f.minRating)
    ensures forall p :: multiset(r)[p] == if Passes(f, p) then multiset(catalog)[p] else 0
    ensures IsSubsequence(r, catalog)
  {
    Keep(catalog, p => Passes(f, p))
  }

  /** The "Newly Added for You" strip: the products flagged new, in order. */
  function NewArrivals(catalog: seq<Product>): (r: seq<Product>)
    ensures forall p :: p in r <==> p in catalog && p.isNew
    ensures forall p :: multiset(r)[p] == if p.isNew then multiset(catalog)[p] else 0
    ensures IsSubsequence(r, catalog)
  {
    Keep(catalog, (p: Product) => p.isNew)
  }

  /** All products of one category, as each row of the categories page
      computes before it is cut down. */
  function InCategory(catalog: seq<Product>, category: string): (r: seq<Product>)
    ensures forall p :: p in r <==> p in catalog && p.category == category
    ensures forall p :: multiset(r)[p] == if p.category == category then multiset(catalog)[p] else 0
    ensures IsSubsequence(r, catalog)
  {
    Keep(catalog, (p: Product) => p.category == category)
  }

  /** How many featured products a category row shows. */
  const FeaturedLimit: nat := 3

  /** The featured products of a category row: the first three products of
      that category in catalogue order, or all of them when there are fewer. */
  function Featured(catalog: seq<Product>, category: string): (r: seq<Product>)
    ensures |r| <= FeaturedLimit
    ensures forall p :: p in r ==> p in catalog && p.category == category
    ensures |r| == FeaturedLimit || r == InCategory(catalog, category)
    ensures |r| <= |InCategory(catalog, category)|
    ensures forall i :: 0 <= i < |r| ==> r[i] == InCategory(catalog, category)[i]
  {
    Take(InCategory(catalog, category), FeaturedLimit)
  }

  /** The reviews listed on a product's detail page. */
  function ReviewsFor(all: seq<Review>, productId: string): (r: seq<Review>)
    ensures forall v :: v in r <==> v in all && v.productId == productId
    ensures forall v :: multiset(r)[v] == if v.productId == productId then multiset(all)[v] else 0
    ensures IsSubsequence(r, all)
  {
    Keep(all, (v: Review) => v.productId == productId)
  }

  /** The filter narrows monotonically: tightening the price window (and
      keeping category and threshold) can only remove products. */
  lemma NarrowerWindowIsSubset(catalog: seq<Product>, f: FilterState, lo: int, hi: int, p: Product)
    requires f.lo <= lo && hi <= f.hi
    requires p in Filter(catalog, f.(lo := lo, hi := hi))
    ensures p in Filter(catalog, f)
  {
  }

  /** The default sidebar filters nothing out by category or rating: a
      product is listed by default exactly when its price is at most 15000. */
  lemma DefaultFilterIsPriceCap(catalog: seq<Product>, p: Product)
    ensures p in Filter(catalog, DefaultFilter) <==> p in catalog && p.price <= 15000
  {
  }

  /** The seed catalogue of the storefront (twelve products). */
  const SampleProducts: seq<Product> := [
    Product("1", "Jaipur Blue Pottery Vase", "Rajasthan Blue Pottery Co.", "Master Ramesh Kumhar", 1450, 4.8, 23, "Pottery", 15, true, false, false),
    Product("2", "Kashmir Pashmina Shawl", "Kashmir Valley Weavers", "Ustad Abdul Gani", 3200, 4.9, 45, "Textiles", 8, false, true, false),
    Product("3", "Traditional Brass Diya Set", "Moradabad Metal Crafts", "Craftsman Mohd. Salim", 650, 4.7, 67, "Metalware", 32, true, false, false),
    Product("4", "Handwoven Agra Carpet", "Agra Carpet House", "Master Weaver Ashok", 12500, 4.6, 12, "Carpets", 3, false, false, true),
    Product("5", "Sheesham Wood Jewelry Box", "Saharanpur Wood Works", "Craftsman Vikram Singh", 2100, 4.5, 34, "Woodwork", 18, false, true, false),
    Product("6", "Madhubani Folk Art Painting", "Bihar Folk Art Collective", "Artist Sita Devi", 850, 4.8, 28, "Paintings", 12, true, false, false),
    Product("7", "Banarasi Silk Saree", "Varanasi Silk Emporium", "Master Weaver Rajesh Kumar", 8500, 4.9, 56, "Textiles", 6, false, false, true),
    Product("8", "Copper Water Pot Set", "Rajasthan Copper Works", "Craftsman Deepak Sharma", 1200, 4.6, 42, "Metalware", 25, true, false, false),
    Product("9", "Handwoven Jute Bags", "Eco Craft Collective", "Artisan Priya Mehta", 450, 4.4, 38, "Textiles", 50, false, true, false),
    Product("10", "Marble Inlay Table", "Agra Marble Works", "Master Craftsman Ahmed Ali", 18500, 4.7, 19, "Woodwork", 2, false, false, true),
    Product("11", "Terracotta Wall Hanging", "Bengal Pottery Studio", "Artist Sunita Das", 750, 4.5, 31, "Pottery", 20, true, false, false),
    Product("12", "Silver Filigree Earrings", "Cuttack Silver Crafts", "Master Silversmith Bijay Kumar", 2800, 4.8, 47, "Jewelry", 15, false, true, false)
  ]

  /** The price window decides the vase priced 1450: a maximum of 1000 hides
      it and a maximum of 1500 shows it. */
  lemma VaseAndPriceCap()
    ensures SampleProducts[0] !in Filter(SampleProducts, DefaultFilter.(hi := 1000))
    ensures SampleProducts[0] in Filter(SampleProducts, DefaultFilter.(hi := 1500))
  {
  }

  /** With the sidebar untouched, the grid lists every seed product except
      the marble inlay table, whose price of 18500 lies above the slider's
      maximum of 15000. */
  lemma DefaultHidesOnlyMarbleTable()
    ensures SampleProducts[9] !in Filter(SampleProducts, DefaultFilter)
    ensures forall i :: 0 <= i < |SampleProducts| && i != 9 ==>
      SampleProducts[i] in Filter(SampleProducts, DefaultFilter)
  {
    assert forall i :: 0 <= i < |SampleProducts| && i != 9 ==> SampleProducts[i].price <= 15000;
    forall i | 0 <= i < |SampleProducts| && i != 9
      ensures SampleProducts[i] in Filter(SampleProducts, DefaultFilter)
    {
      DefaultFilterIsPriceCap(SampleProducts, SampleProducts[i]);
    }
  }

  /** No product priced above the window's top is listed, whatever the
      catalogue and the rest of the sidebar. */
  lemma AboveWindowNeverListed(catalog: seq<Product>, f: FilterState, p: Product)
    requires p.price > f.hi
    ensures p !in Filter(catalog, f)
  {
  }

  /** The price slider's upper end is 15000, so whatever the buyer does with
      the sidebar the marble inlay table (18500) is never listed. */
  lemma MarbleTableNeverListed(f: FilterState)
    requires f.hi <= 15000
    ensures SampleProducts[9].price == 18500
    ensures SampleProducts[9] !in Filter(SampleProducts, f)
  {
    var table := SampleProducts[9];
    assert table.price == 18500;
    AboveWindowNeverListed(SampleProducts, f, table);
  }
}

=== FILE: checkout.dfy ===
/** The payment step of the checkout page: `method` shows the Place Order
    button, `processing` shows a spinner until a timer fires, and `success`
    shows Continue Shopping, which returns to `method`. */
module Checkout {

  datatype PaymentStep = Method | Processing | Success

  /** What can happen on the payment panel: the Place Order button, the
      settlement timer firing, the Continue Shopping button. */
  datatype PaymentEvent = PlaceOrder | TimerFired | ContinueShopping

  /** The payment step together with the number of settlement timers that
      have been scheduled and not yet fired. */
  datatype Payment = Payment(step: PaymentStep, pendingTimers: nat)

  /** The panel as the checkout page opens it. */
  const InitialPayment: Payment := Payment(Method, 0)

  /** Whether the event can happen at all: each button exists only in the
      step that renders it, and a timer can fire only if one is pending. */
  predicate Offered(p: Payment, e: PaymentEvent) {
    match e
    case PlaceOrder => p.step == Method
    case TimerFired => p.pendingTimers > 0
    case ContinueShopping => p.step == Success
  }

  /** The panel after an event. Placing an order moves to `processing` and
      schedules a timer; the timer callback sets `success` whatever the step;
      Continue Shopping sets `method`. An event that cannot happen changes
      nothing. */
  function Next(p: Payment, e: PaymentEvent): (r: Payment)
    ensures !Offered(p, e) ==> r == p
    ensures Offered(p, e) && e == PlaceOrder ==> r.step == Processing
    ensures Offered(p, e) && e == TimerFired ==> r.step == Success
    ensures Offered(p, e) && e == ContinueShopping ==> r.step == Method
  {
    if !Offered(p, e) then p
    else match e
      case PlaceOrder => Payment(Processing, p.pendingTimers + 1)
      case TimerFired => Payment(Success, p.pendingTimers - 1)
      case ContinueShopping => Payment(Method, p.pendingTimers)
  }

  /** The panel after a sequence of events from the opening state. */
  function Run(events: seq<PaymentEvent>): Payment
    decreases |events|
  {
    if |events| == 0 then InitialPayment
    else Next(Run(events[..|events| - 1]), events[|events| - 1])
  }

  /** The reachable panels: exactly one timer is pending while processing and
      none otherwise. */
  predicate Valid(p: Payment) {
    p.pendingTimers == if p.step == Processing then 1 else 0
  }

  /** Every event keeps the panel valid. */
  lemma NextPreservesValid(p: Payment, e: PaymentEvent)
    requires Valid(p)
    ensures Valid(Next(p, e))
  {
  }

  /** Every reachable panel is valid. */
  lemma {:induction false} RunIsValid(events: seq<PaymentEvent>)
    ensures Valid(Run(events))
    decreases |events|
  {
    if |events| > 0 {
      RunIsValid(events[..|events| - 1]);
      NextPreservesValid(Run(events[..|events| - 1]), events[|events| - 1]);
    }
  }

  /** The only moves a reachable panel makes are method to processing on
      Place Order, processing to success on the timer, and success to method
      on Continue Shopping; anything else leaves it as it was. */
  lemma OnlyLegalMoves(p: Payment, e: PaymentEvent)
    requires Valid(p)
    ensures Next(p, e) == p
      || (p.step == Method && e == PlaceOrder && Next(p, e).step == Processing)
      || (p.step == Processing && e == TimerFired && Next(p, e).step == Success)
      || (p.step == Success && e == ContinueShopping && Next(p, e).step == Method)
  {
  }

  /** Once processing, only the timer moves the panel on: a second Place
      Order (there is no button for it) and Continue Shopping are ignored. */
  lemma ProcessingWaitsForTimer(p: Payment, e: PaymentEvent)
    requires Valid(p) && p.step == Processing
    ensures e != TimerFired ==> Next(p, e) == p
    ensures e == TimerFired ==> Next(p, e) == Payment(Success, 0)
  {
  }

  /** Without the validity invariant the timer could fire in any step: the
      callback does not look at the step it overwrites. */
  lemma StaleTimerOverwrites()
    ensures Next(Payment(Method, 1), TimerFired).step == Success
  {
  }

  /** Placing an order, letting the timer fire and continuing shopping brings
      the panel back to where it started. */
  lemma FullCycle()
    ensures Run([PlaceOrder, TimerFired, ContinueShopping]) == InitialPayment
  {
    assert [PlaceOrder, TimerFired, ContinueShopping][..2] == [PlaceOrder, TimerFired];
    assert [PlaceOrder, TimerFired][..1] == [PlaceOrder];
    assert [PlaceOrder][..0] == [];
  }
}

=== FILE: search.dfy ===
/** The search bar: a case-insensitive substring filter over a fixed list of
    suggestions, and the dropdown whose contents depend on the query and
    whose visibility follows focus, outside clicks and selections. */
module Search {
  import opened Seqs

  datatype SuggestionKind = Recent | Trending

  datatype Suggestion = Suggestion(kind: SuggestionKind, text: string)

  /** The suggestions the search bar offers. */
  const Suggestions: seq<Suggestion> := [
    Suggestion(Recent, "Blue pottery vase"),
    Suggestion(Recent, "Kashmir pashmina"),
    Suggestion(Trending, "Brass diya set"),
    Suggestion(Trending, "Madhubani painting"),
    Suggestion(Trending, "Handwoven carpet")
  ]

  /** The category shortcuts shown while the query is empty. */
  const PopularCategories: seq<string> := [
    "Pottery & Ceramics",
    "Textiles & Fabrics",
    "Metalware",
    "Woodwork",
    "Paintings & Art",
    "Jewelry & Accessories"
  ]

  /** Lower-casing of one character, for the ASCII letters only. */
  function LowerChar(c: char): (r: char)
    ensures 'A' <= c <= 'Z' ==> 'a' <= r <= 'z' && r as int - c as int == 32
    ensures !('A' <= c <= 'Z') ==> r == c
  {
    if 'A' <= c <= 'Z' then (c as int + 32) as char else c
  }

  /** Lower-casing of a string, character by character. */
  function Lower(s: string): (r: string)
    ensures |r| == |s|
    ensures forall i :: 0 <= i < |s| ==> r[i] == LowerChar(s[i])
    ensures forall i :: 0 <= i < |r| ==> !('A' <= r[i] <= 'Z')
  {
    seq(|s|, i requires 0 <= i < |s| => LowerChar(s[i]))
  }

  /** `needle` occurs in `hay` starting at position `i`. */
  ghost predicate OccursAt(hay: string, needle: string, i: int) {
    0 <= i && i + |needle| <= |hay| && hay[i..i + |needle|] == needle
  }

  /** `needle` occurs in `hay` at some position. */
  ghost predicate Occurs(hay: string, needle: string) {
    exists i :: OccursAt(hay, needle, i)
  }

  /** Substring search: does `needle` occur in `hay`? Tries each start
      position from the left. */
  predicate Contains(hay: string, needle: string)
    decreases |hay|
  {
    if |needle| > |hay| then false
    else if hay[..|needle|] == needle then true
    else |hay| > 0 && Contains(hay[1..], needle)
  }

  /** The search finds the needle exactly when it occurs somewhere. */
  lemma {:induction false} ContainsIffOccurs(hay: string, needle: string)
    ensures Contains(hay, needle) <==> Occurs(hay, needle)
    decreases |hay|
  {
    if |needle| > |hay| {
    } else if hay[..|needle|] == needle {
      assert OccursAt(hay, needle, 0);
    } else if |hay| > 0 {
      ContainsIffOccurs(hay[1..], needle);
      if Occurs(hay, needle) {
        var i :| OccursAt(hay, needle, i);
        assert i != 0;
        assert hay[1..][i - 1..i - 1 + |needle|] == needle;
        assert OccursAt(hay[1..], needle, i - 1);
      }
      if Occurs(hay[1..], needle) {
        var i :| OccursAt(hay[1..], needle, i);
        assert hay[i + 1..i + 1 + |needle|] == needle;
        assert OccursAt(hay, needle, i + 1);
      }
    }
  }

  /** Whether one suggestion matches a query, ignoring case. */
  predicate Matches(query: string, s: Suggestion) {
    Contains(Lower(s.text), Lower(query))
  }

  /** The suggestions whose lower-cased text contains the lower-cased query,
      in list order. */
  function Matching(list: seq<Suggestion>, query: string): (r: seq<Suggestion>)
    ensures forall s :: s in r <==> s in list && Occurs(Lower(s.text), Lower(query))
    ensures forall s :: multiset(r)[s] == if Occurs(Lower(s.text), Lower(query)) then multiset(list)[s] else 0
    ensures IsSubsequence(r, list)
  {
    var r := Keep(list, s => Matches(query, s));
    forall s
      ensures Matches(query, s) <==> Occurs(Lower(s.text), Lower(query))
    {
      ContainsIffOccurs(Lower(s.text), Lower(query));
    }
    r
  }

  /** The suggestion list the dropdown draws from: the full list while the
      query is empty, the matching suggestions otherwise. */
  function FilteredSuggestions(list: seq<Suggestion>, query: string): (r: seq<Suggestion>)
    ensures |query| == 0 ==> r == list
    ensures |query| > 0 ==> forall s :: s in r <==> s in list && Occurs(Lower(s.text), Lower(query))
    ensures |query| > 0 ==> forall s :: multiset(r)[s] == if Occurs(Lower(s.text), Lower(query)) then multiset(list)[s] else 0
    ensures IsSubsequence(r, list) && |r| <= |list|
  {
    if |query| > 0 then Matching(list, query)
    else
      SubsequenceOfSelf(list);
      list
  }

  /** Every string contains the empty string, so the empty-query branch
      agrees with the filter: the two branches compute the same list. */
  lemma {:induction false} EmptyQueryKeepsAll(list: seq<Suggestion>)
    ensures Matching(list, "") == list
    ensures forall query :: FilteredSuggestions(list, query) == Matching(list, query)
  {
    forall i | 0 <= i < |list|
      ensures Matches("", list[i])
    {
      assert Lower(list[i].text)[..0] == Lower("");
    }
    KeepAll(list, s => Matches("", s));
  }

  /** Case does not matter: a query and its lower-cased form select the same
      suggestions. */
  lemma QueryCaseIgnored(list: seq<Suggestion>, query: string)
    ensures Matching(list, Lower(query)) == Matching(list, query)
  {
    assert Lower(Lower(query)) == Lower(query);
    KeepCongruent(list, s => Matches(Lower(query), s), s => Matches(query, s));
  }

  /** What the search bar holds: the query text and whether the dropdown is
      open. */
  datatype SearchState = SearchState(query: string, open: bool)

  /** The bar as it first renders: empty and closed. */
  const InitialSearch: SearchState := SearchState("", false)

  /** What happens to the search bar: typing, focusing the input, a mouse
      press inside or outside the bar, or choosing a shown entry. */
  datatype SearchEvent = TypeText(text: string) | Focus | MouseDown(inside: bool) | Choose(text: string)

  /** The dropdown as drawn: nothing, the browse panel (category shortcuts
      and the suggestion list), the matching suggestions, or the "No
      suggestions found" message. */
  datatype Dropdown = Hidden | Browse(categories: seq<string>, items: seq<Suggestion>) | Results(items: seq<Suggestion>) | NoResults

  /** The dropdown for a state. Category shortcuts appear only while the
      query is empty; the "No suggestions found" message appears exactly when
      the query is non-empty and no suggestion contains it. */
  function View(list: seq<Suggestion>, st: SearchState): (r: Dropdown)
    ensures r.Hidden? <==> !st.open
    ensures r.Browse? <==> st.open && |st.query| == 0
    ensures r.Browse? ==> r.categories == PopularCategories && r.items == list
    ensures r.NoResults? <==> st.open && |st.query| > 0 && forall s :: s in list ==> !Occurs(Lower(s.text), Lower(st.query))
    ensures r.Results? <==> st.open && |st.query| > 0 && exists s :: s in list && Occurs(Lower(s.text), Lower(st.query))
    ensures r.Results? ==> forall s :: s in r.items <==> s in list && Occurs(Lower(s.text), Lower(st.query))
    ensures r.Results? ==> forall s :: multiset(r.items)[s] == if Occurs(Lower(s.text), Lower(st.query)) then multiset(list)[s] else 0
    ensures r.Results? ==> IsSubsequence(r.items, list)
  {
    var items := FilteredSuggestions(list, st.query);
    if !st.open then Hidden
    else if |st.query| == 0 then Browse(PopularCategories, items)
    else if |items| > 0 then
      assert items[0] in items;
      Results(items)
    else NoResults
  }

  /** The texts of the buttons the dropdown shows; choosing one of them runs
      the search for it. */
  function Shown(d: Dropdown): seq<string> {
    match d
    case Hidden => []
    case Browse(categories, items) => categories + seq(|items|, i requires 0 <= i < |items| => items[i].text)
    case Results(items) => seq(|items|, i requires 0 <= i < |items| => items[i].text)
    case NoResults => []
  }

  /** The bar after an event. Typing replaces the query; focusing opens the
      dropdown; a press outside closes it; choosing a shown entry makes it the
      query and closes the dropdown. Anything else changes nothing. */
  function Next(list: seq<Suggestion>, st: SearchState, e: SearchEvent): (r: SearchState)
    ensures e.TypeText? ==> r == st.(query := e.text)
    ensures e == Focus ==> r == st.(open := true)
    ensures e == MouseDown(false) ==> r == st.(open := false)
    ensures e == MouseDown(true) ==> r == st
    ensures e.Choose? && e.text in Shown(View(list, st)) ==> r == SearchState(e.text, false)
    ensures e.Choose? && e.text !in Shown(View(list, st)) ==> r == st
  {
    match e
    case TypeText(text) => st.(query := text)
    case Focus => st.(open := true)
    case MouseDown(inside) => if inside then st else st.(open := false)
    case Choose(text) => if text in Shown(View(list, st)) then SearchState(text, false) else st
  }

  /** Focusing opens the dropdown and nothing else does; a press outside
      always closes it, a choice from the open dropdown closes it too, and
      nothing else does; typing and presses inside leave it as it is. */
  lemma OpenFlagTransitions(list: seq<Suggestion>, st: SearchState, e: SearchEvent)
    ensures Next(list, st, e).open && !st.open <==> e == Focus && !st.open
    ensures e == Focus ==> Next(list, st, e).open
    ensures e == MouseDown(false) ==> !Next(list, st, e).open
    ensures !Next(list, st, e).open && st.open <==> st.open && (e == MouseDown(false) || (e.Choose? && e.text in Shown(View(list, st))))
    ensures e.TypeText? || e == MouseDown(true) ==> Next(list, st, e).open == st.open
  {
  }

  /** A choice can only be made from an open dropdown, and it always closes
      it with the chosen text as the query. */
  lemma ChooseNeedsOpenDropdown(list: seq<Suggestion>, st: SearchState, text: string)
    requires Next(list, st, Choose(text)) != st
    ensures st.open
    ensures View(list, Next(list, st, Choose(text))) == Hidden
    ensures Next(list, st, Choose(text)).query == text
  {
  }

  /** Focusing the empty bar opens the browse panel: all category shortcuts
      and every suggestion in list order. */
  lemma FocusShowsBrowsePanel(list: seq<Suggestion>)
    ensures View(list, Next(list, InitialSearch, Focus)) == Browse(PopularCategories, list)
  {
  }

  /** Typing "PASHMINA" into the open bar lists the Kashmir pashmina
      suggestion: matching ignores case. */
  lemma PashminaFound()
    ensures Suggestions[1] in FilteredSuggestions(Suggestions, "PASHMINA")
  {
    var text := Lower(Suggestions[1].text);
    assert Lower("PASHMINA") == "pashmina";
    assert text[8..16] == "pashmina";
    assert OccursAt(text, Lower("PASHMINA"), 8);
  }
}

=== FILE: seqs.dfy ===
/** Sequence helpers shared by every view of the storefront: a stable filter
    (the behaviour of `Array.prototype.filter`) and the subsequence relation
    used to say that a filter keeps the original order. */
module Seqs {

  /** `a` can be obtained from `b` by deleting elements, keeping the order. */
  predicate IsSubsequence<T(==)>(a: seq<T>, b: seq<T>)
    decreases |b|
  {
    if |a| == 0 then true
    else if |b| == 0 then false
    else (a[0] == b[0] && IsSubsequence(a[1..], b[1..])) || IsSubsequence(a, b[1..])
  }

  /** Stable filter: the elements of `s` satisfying `p`, in their original
      order. The contract pins the result down completely: an ordered
      subsequence that keeps every occurrence of a passing element and none of
      a failing one. */
  function Keep<T(==,!new)>(s: seq<T>, p: T -> bool): (r: seq<T>)
    ensures |r| <= |s|
    ensures forall x :: x in r <==> x in s && p(x)
    ensures forall x :: multiset(r)[x] == if p(x) then multiset(s)[x] else 0
    ensures IsSubsequence(r, s)
  {
    if |s| == 0 then []
    else
      assert s == [s[0]] + s[1..];
      var rest := Keep(s[1..], p);
      if p(s[0]) then [s[0]] + rest else rest
  }

  /** The first `n` elements of `s`, or all of them when there are fewer
      (the behaviour of `slice(0, n)`). */
  function Take<T>(s: seq<T>, n: nat): (r: seq<T>)
    ensures |r| == if |s| < n then |s| else n
    ensures forall i :: 0 <= i < |r| ==> r[i] == s[i]
  {
    if |s| < n then s else s[..n]
  }

  /** Filtering distributes over concatenation. */
  lemma {:induction false} KeepAppend<T(!new)>(a: seq<T>, b: seq<T>, p: T -> bool)
    ensures Keep(a + b, p) == Keep(a, p) + Keep(b, p)
    decreases |a|
  {
    if |a| == 0 {
      assert a + b == b;
    } else {
      assert (a + b)[1..] == a[1..] + b;
      KeepAppend(a[1..], b, p);
    }
  }

  /** A filter that every element passes changes nothing. */
  lemma {:induction false} KeepAll<T(!new)>(s: seq<T>, p: T -> bool)
    requires forall i :: 0 <= i < |s| ==> p(s[i])
    ensures Keep(s, p) == s
    decreases |s|
  {
    if |s| > 0 {
      KeepAll(s[1..], p);
    }
  }

  /** Two predicates that agree on the elements of `s` filter it alike. */
  lemma {:induction false} KeepCongruent<T(!new)>(s: seq<T>, p: T -> bool, q: T -> bool)
    requires forall i :: 0 <= i < |s| ==> p(s[i]) == q(s[i])
    ensures Keep(s, p) == Keep(s, q)
    decreases |s|
  {
    if |s| > 0 {
      KeepCongruent(s[1..], p, q);
    }
  }

  /** A subsequence of a sequence without repeats has none either. */
  lemma {:induction false} DistinctSubsequence<T>(a: seq<T>, b: seq<T>)
    requires IsSubsequence(a, b)
    requires forall i, j :: 0 <= i < j < |b| ==> b[i] != b[j]
    ensures forall i, j :: 0 <= i < j < |a| ==> a[i] != a[j]
    decreases |b|
  {
    if |a| > 0 {
      if a[0] == b[0] && IsSubsequence(a[1..], b[1..]) {
        DistinctSubsequence(a[1..], b[1..]);
        SubsequenceMembers(a[1..], b[1..]);
        forall j | 0 < j < |a|
          ensures a[0] != a[j]
        {
          assert a[j] == a[1..][j - 1];
          assert a[j] in b[1..];
          var k :| 0 <= k < |b[1..]| && b[1..][k] == a[j];
          assert b[k + 1] == a[j];
        }
        forall i, j | 0 < i < j < |a|
          ensures a[i] != a[j]
        {
          assert a[i] == a[1..][i - 1] && a[j] == a[1..][j - 1];
        }
      } else {
        DistinctSubsequence(a, b[1..]);
      }
    }
  }

  /** Every element of a subsequence occurs in the sequence. */
  lemma {:induction false} SubsequenceMembers<T>(a: seq<T>, b: seq<T>)
    requires IsSubsequence(a, b)
    ensures forall x :: x in a ==> x in b
    decreases |b|
  {
    if |a| > 0 {
      if a[0] == b[0] && IsSubsequence(a[1..], b[1..]) {
        SubsequenceMembers(a[1..], b[1..]);
        assert a == [a[0]] + a[1..];
        assert b == [b[0]] + b[1..];
      } else {
        SubsequenceMembers(a, b[1..]);
        assert b == [b[0]] + b[1..];
      }
    }
  }

  /** Every sequence is a subsequence of itself. */
  lemma {:induction false} SubsequenceOfSelf<T>(s: seq<T>)
    ensures IsSubsequence(s, s)
    decreases |s|
  {
    if |s| > 0 {
      SubsequenceOfSelf(s[1..]);
    }
  }
}

=== FILE: session.dfy ===
/** The demo sign-in of the navigation bar, the session it opens and closes,
    and the light/dark theme switch. */
module Session {

  datatype Option<T> = None | Some(value: T)

  datatype UserType = Buyer | Seller

  datatype User = User(name: string, email: string, userType: UserType)

  /** The fields of the sign-in form the decision reads; a field left blank
      is the empty string. */
  datatype AuthForm = AuthForm(name: string, email: string, password: string)

  /** The pages the app can show. */
  datatype Page = Marketplace | ProductDetail | CheckoutPage | SellerDashboard | BuyerProfile | Categories | About

  /** Who is signed in, as the app shell holds it. */
  datatype SessionState = SessionState(user: Option<User>, userType: Option<UserType>, authenticated: bool, page: Page)

  const DemoBuyerEmail: string := "buyer@demo.com"
  const DemoSellerEmail: string := "seller@demo.com"
  const DemoPassword: string := "demo123"
  const FallbackEmail: string := "demo@pehchaan.com"

  /** The session when the app starts with nothing restored. */
  const SignedOut: SessionState := SessionState(None, None, false, Marketplace)

  /** One of the two demo accounts with the demo password. */
  predicate IsDemoLogin(f: AuthForm) {
    (f.email == DemoBuyerEmail || f.email == DemoSellerEmail) && f.password == DemoPassword
  }

  /** The display name when the form gives none: named after the demo
      account, or a generic one. */
  function FallbackName(email: string): string {
    if email == DemoBuyerEmail then "Demo Buyer"
    else if email == DemoSellerEmail then "Demo Seller"
    else "Demo User"
  }

  /** The sign-in decision: the demo credentials or any non-blank email or
      password are accepted. A blank name falls back to a demo name chosen
      by the email, a blank email to the demo address, and the account type
      is the one the modal was opened for. */
  function DecideAuth(f: AuthForm, modalType: UserType): (r: Option<User>)
    ensures r.Some? <==> f.email != "" || f.password != ""
    ensures r.Some? ==> r.value.userType == modalType
    ensures r.Some? && f.email != "" ==> r.value.email == f.email
    ensures r.Some? && f.email == "" ==> r.value.email == FallbackEmail
    ensures r.Some? && f.name != "" ==> r.value.name == f.name
    ensures r.Some? && f.name == "" && f.email == DemoBuyerEmail ==> r.value.name == "Demo Buyer"
    ensures r.Some? && f.name == "" && f.email == DemoSellerEmail ==> r.value.name == "Demo Seller"
    ensures r.Some? && f.name == "" && f.email != DemoBuyerEmail && f.email != DemoSellerEmail ==> r.value.name == "Demo User"
  {
    if IsDemoLogin(f) || f.email != "" || f.password != "" then
      Some(User(
        if f.name != "" then f.name else FallbackName(f.email),
        if f.email != "" then f.email else FallbackEmail,
        modalType))
    else None
  }

  /** Signing in records the user and its type and marks the session
      authenticated, staying on the current page. */
  function Login(s: SessionState, u: User): (r: SessionState)
    ensures r.authenticated && r.user == Some(u) && r.userType == Some(u.userType)
    ensures r.page == s.page
  {
    s.(user := Some(u), userType := Some(u.userType), authenticated := true)
  }

  /** Signing out forgets the user and returns to the marketplace. */
  function Logout(s: SessionState): (r: SessionState)
    ensures !r.authenticated && r.user.None? && r.userType.None?
    ensures r.page == Marketplace
  {
    s.(user := None, userType := None, authenticated := false, page := Marketplace)
  }

  /** Submitting the sign-in form: sign in when the decision accepts,
      otherwise (the page only shows an alert) leave the session alone. */
  function SubmitAuth(s: SessionState, f: AuthForm, modalType: UserType): (r: SessionState)
    ensures f.email == "" && f.password == "" ==> r == s
    ensures f.email != "" || f.password != "" ==>
      && r.authenticated && r.user.Some? && r.userType == Some(modalType)
      && r.user.value.userType == modalType
      && r.user.value.email == (if f.email != "" then f.email else FallbackEmail)
      && r.page == s.page
    ensures f.email != "" || f.password != "" ==>
      r.user.Some? && r.user.value.name == (if f.name != "" then f.name else FallbackName(f.email))
  {
    match DecideAuth(f, modalType)
    case Some(u) => Login(s, u)
    case None => s
  }

  /** The session fields agree with each other: authenticated exactly when a
      user is recorded, and the recorded type is that user's type. */
  predicate Consistent(s: SessionState) {
    && (s.authenticated <==> s.user.Some?)
    && s.userType == (if s.user.Some? then Some(s.user.value.userType) else None)
  }

  /** The demo credentials are accepted and name the matching demo user. */
  lemma DemoBuyerAccepted(modalType: UserType)
    ensures DecideAuth(AuthForm("", DemoBuyerEmail, DemoPassword), modalType)
      == Some(User("Demo Buyer", DemoBuyerEmail, modalType))
  {
  }

  /** A form submitted with both email and password blank signs nobody in. */
  lemma BlankFormRejected(s: SessionState, name: string, modalType: UserType)
    ensures SubmitAuth(s, AuthForm(name, "", ""), modalType) == s
  {
  }

  /** Submitting the form keeps the session consistent, and afterwards the
      session is signed in exactly when it was before or the form gave an
      email or a password. */
  lemma SubmitAuthKeepsConsistent(s: SessionState, f: AuthForm, modalType: UserType)
    requires Consistent(s)
    ensures Consistent(SubmitAuth(s, f, modalType))
    ensures SubmitAuth(s, f, modalType).authenticated <==> s.authenticated || f.email != "" || f.password != ""
  {
  }

  /** Signing out always lands on the signed-out session on the
      marketplace, whatever came before, so it also undoes any sign-in. */
  lemma LogoutForgets(s: SessionState, u: User)
    ensures Logout(s) == SignedOut
    ensures Logout(Login(s, u)) == Logout(s)
    ensures Consistent(Logout(s))
  {
  }

  const Light: string := "light"
  const Dark: string := "dark"

  /** The theme switch: light becomes dark, anything else becomes light (a
      theme restored from storage may be any string). */
  function ToggleTheme(theme: string): (r: string)
    ensures r == Light || r == Dark
    ensures r == Dark <==> theme == Light
  {
    if theme == Light then Dark else Light
  }

  /** Switching twice gives back the theme exactly when it was light or
      dark; any other stored value ends up dark. */
  lemma ToggleThemeInvolution(theme: string)
    ensures ToggleTheme(ToggleTheme(theme)) == theme <==> theme == Light || theme == Dark
    ensures theme != Light && theme != Dark ==> ToggleTheme(ToggleTheme(theme)) == Dark
  {
  }
}

=== FILE: stepper.dfy ===
/** The quantity stepper of the product detail view: it starts at 1, the
    minus button never goes below 1 and the plus button never goes above the
    product's stock. */
module QuantityStepper {

  /** The quantity the detail view opens with. */
  const InitialQuantity: int := 1

  /** The two buttons beside the quantity. */
  datatype Press = Minus | Plus

  /** The minus button: one less, but never below 1. */
  function Decrement(q: int): (r: int)
    ensures r >= 1
    ensures r <= q || q < 1
    ensures q > 1 ==> r == q - 1
    ensures q <= 1 ==> r == 1
  {
    if q - 1 < 1 then 1 else q - 1
  }

  /** The plus button: one more, but never above the stock. */
  function Increment(q: int, stock: int): (r: int)
    ensures r <= stock
    ensures r <= q + 1
    ensures q < stock ==> r == q + 1
    ensures q + 1 >= stock ==> r == stock
  {
    if q + 1 < stock then q + 1 else stock
  }

  /** The quantity after one press. */
  function Step(q: int, stock: int, b: Press): int {
    match b
    case Minus => Decrement(q)
    case Plus => Increment(q, stock)
  }

  /** The quantity after a sequence of presses, first press first. */
  function Run(q: int, stock: int, presses: seq<Press>): int
    decreases |presses|
  {
    if |presses| == 0 then q else Run(Step(q, stock, presses[0]), stock, presses[1..])
  }

  /** One press keeps a quantity in `[1, stock]` inside it. */
  lemma StepStaysInRange(q: int, stock: int, b: Press)
    requires 1 <= q <= stock
    ensures 1 <= Step(q, stock, b) <= stock
  {
  }

  /** Any sequence of presses keeps a quantity in `[1, stock]` inside it. */
  lemma {:induction false} RunStaysInRange(q: int, stock: int, presses: seq<Press>)
    requires 1 <= q <= stock
    ensures 1 <= Run(q, stock, presses) <= stock
    decreases |presses|
  {
    if |presses| > 0 {
      StepStaysInRange(q, stock, presses[0]);
      RunStaysInRange(Step(q, stock, presses[0]), stock, presses[1..]);
    }
  }

  /** For a product in stock, whatever the buyer presses, the quantity the
      detail view sends to the cart is between 1 and the stock. */
  lemma QuantityWithinStock(stock: int, presses: seq<Press>)
    requires stock >= 1
    ensures 1 <= Run(InitialQuantity, stock, presses) <= stock
  {
    RunStaysInRange(InitialQuantity, stock, presses);
  }

  /** `n` presses of plus from `q` reach `min(stock, q + n)`: every
      quantity up to the stock can be chosen. */
  lemma {:induction false} PlusPressesReach(q: int, stock: int, n: nat)
    requires 1 <= q <= stock
    ensures Run(q, stock, seq(n, _ => Plus)) == if q + n < stock then q + n else stock
    decreases n
  {
    if n > 0 {
      var presses := seq(n, _ => Plus);
      assert presses[0] == Plus;
      assert presses[1..] == seq(n - 1, _ => Plus);
      PlusPressesReach(Increment(q, stock), stock, n - 1);
    }
  }

  /** With no stock the plus button takes the opening quantity 1 down to 0:
      the upper clamp wins over the lower bound. */
  lemma OutOfStockPlus()
    ensures Step(InitialQuantity, 0, Plus) == 0
  {
  }
}

=== FILE: tags.dfy ===
/** The interest tags of the buyer profile: clicking a tag removes it from the
    selection when it is selected and appends it otherwise. */
module InterestTags {
  import opened Seqs

  /** The tags selected when the profile page opens. */
  const InitialTags: seq<string> := ["Pottery", "Textiles", "Paintings"]

  /** The tags the profile offers. */
  const AvailableTags: seq<string> := ["Pottery", "Textiles", "Metalware", "Carpets", "Woodwork", "Paintings", "Jewelry", "Sculptures"]

  /** The test "is not this tag", as the removal branch filters with it. */
  function Except(t: string): string -> bool {
    u => u != t
  }

  /** Clicking tag `t`: drop every copy of it if selected, else append it.
      Whether `t` is selected flips, every other tag keeps its membership,
      the other tags keep their relative order, and an unselected tag is
      appended once, at the end. */
  function Toggle(tags: seq<string>, t: string): (r: seq<string>)
    ensures t in r <==> t !in tags
    ensures forall u :: u != t ==> (u in r <==> u in tags)
    ensures Keep(r, Except(t)) == Keep(tags, Except(t))
    ensures t !in tags ==> r == tags + [t]
  {
    if t in tags then
      var r := Keep(tags, Except(t));
      KeepAll(r, Except(t));
      r
    else
      KeepAppend(tags, [t], Except(t));
      tags + [t]
  }

  /** Clicking an unselected tag twice restores the selection exactly. */
  lemma ToggleTwiceRestores(tags: seq<string>, t: string)
    requires t !in tags
    ensures Toggle(Toggle(tags, t), t) == tags
  {
    KeepAppend(tags, [t], Except(t));
    KeepAll(tags, Except(t));
  }

  /** Clicking a selected tag twice keeps the other tags in order and moves
      it to the end. */
  lemma ToggleTwiceMovesToEnd(tags: seq<string>, t: string)
    requires t in tags
    ensures Toggle(Toggle(tags, t), t) == Keep(tags, Except(t)) + [t]
  {
  }

  /** A selection without repeats stays without repeats. */
  lemma ToggleKeepsDistinct(tags: seq<string>, t: string)
    requires forall i, j :: 0 <= i < j < |tags| ==> tags[i] != tags[j]
    ensures forall i, j :: 0 <= i < j < |Toggle(tags, t)| ==> Toggle(tags, t)[i] != Toggle(tags, t)[j]
  {
    var r := Toggle(tags, t);
    if t in tags {
      DistinctSubsequence(r, tags);
    }
  }

  /** On the profile as it opens, every selected tag is one the profile
      offers. */
  lemma InitialTagsOffered()
    ensures forall t :: t in InitialTags ==> t in AvailableTags
  {
    assert InitialTags[0] == AvailableTags[0];
    assert InitialTags[1] == AvailableTags[1];
    assert InitialTags[2] == AvailableTags[5];
  }

  /** Clicking a tag that is not selected appends it at the end. */
  lemma ClickUnselectedAppends(tags: seq<string>, t: string)
    requires t !in tags
    ensures Toggle(tags, t) == tags + [t]
  {
  }

  /** On the profile as it opens, clicking an offered tag that is not
      selected appends it. */
  lemma ClickUnselectedOnOpening()
    ensures Toggle(InitialTags, "Metalware") == InitialTags + ["Metalware"]
  {
    var t := "Metalware";
    assert t[0] == 'M';
    assert InitialTags[0][0] == 'P' && InitialTags[1][0] == 'T' && InitialTags[2][0] == 'P';
    ClickUnselectedAppends(InitialTags, t);
  }

  /** On the profile as it opens, clicking a selected tag removes it and
      keeps the rest in order. */
  lemma ClickSelectedOnOpening()
    ensures Toggle(InitialTags, "Textiles") == ["Pottery", "Paintings"]
  {
    var t := "Textiles";
    assert InitialTags[1] == t;
    var tail := InitialTags[2..];
    assert tail == ["Paintings"];
    assert Keep(tail[1..], Except(t)) == [];
    assert Keep(tail, Except(t)) == ["Paintings"];
    assert InitialTags[1..][1..] == tail;
    assert Keep(InitialTags[1..], Except(t)) == ["Paintings"];
    assert Keep(InitialTags, Except(t)) == ["Pottery", "Paintings"];
  }
}
